=== FILE: README.md ===
# Single-variable function analyzer — verified model of the analysis core

This project models the decision layer of a small tool that reads a function
f(x) typed by a user, validates it, reports its domain, range, axis intercepts
and step-by-step evaluations, and samples it for a plot. The symbolic work is
done by SymPy. Here every SymPy entry point is an uninterpreted field of the
record `Sympy.Library`. A call that can raise returns an `Attempt` (a value or
an exception). So the model states and proves what the program itself
decides: which input is rejected, which field degrades to which fallback,
which narrative is chosen, and which samples are kept.

Modules, following the three source files:

- `Outcomes` (outcomes.dfy): `Option`, `Result` and `Attempt`, the last for
  library calls that may raise.
- `Seqs` (seqs.dfy): an order-preserving `Filter` and its laws.
- `Expressions` (expressions.dfy): the expression tree, the function and
  constant vocabulary of the name table, a node for the other functions the
  library resolves by name, `FreeSymbols` (SymPy's `free_symbols`) and
  `Mentions` (SymPy's `has`).
- `Whitespace` (whitespace.dfy): Python's `str.strip()` over the characters
  `str.isspace()` accepts.
- `Sympy` (sympy.dfy): the library record, sets, floats, solver and sample
  outcomes.
- `Parser` (parser.dfy): the allow-list, the name table and `parse`.
- `Analyzer` (analyzer.dfy): `_domain`, `_range`, `_x_intercepts`,
  `_y_intercept`, `_steps_for_value`, `_steps_y_intercept`,
  `_steps_x_intercepts` and `analyze`.
- `Plotter` (plotter.dfy): plotter construction, window widening,
  `sample_points` and the marker logic of `make_figure`.

Facts about the source that shape the model:

- `parse` (parser.py:60-62) hands the stripped text to `sympify` unchanged;
  it does not rewrite `^`. Any treatment of `^` belongs to the library.
- The allow-list does not close the vocabulary. `sympify` (parser.py:62)
  resolves a name missing from the name table in SymPy's own namespace, so
  `gamma(x)` or `erf(x)` is built too. The tree has a node for such calls.
- The library's empty set is not a `FiniteSet` instance. A solver result
  with no solution takes the other-set branch (analyzer.py:41, 110,
  117-118) and gets the non-finite message. "No real solutions" follows
  only a non-empty finite set none of whose members is definitely real.
- `_x_intercepts` returns an empty list both when the solver finds no real
  solution and when it returns a non-finite set or raises. Only the
  x-intercept narrative tells these cases apart.
- Two of the calls the model lets raise run outside any exception handler:
  - the membership test `0 not in domain` in `_steps_y_intercept`
    (analyzer.py:98);
  - the first denominator substitution in `_steps_for_value`
    (analyzer.py:64).
  So `analyze` itself can raise, and `Analyzer.Analyze` returns an `Attempt`.
  `AnalysisRaises` says exactly when this happens.
- The domain fallback is silent. When discovery raises, the report shows all
  reals and gives no hint that this value is assumed.

## Model

| member | source | states |
|---|---|---|
| Whitespace.Strip | parser.py:58-60 | The stripped text is the infix of the input that starts after its leading whitespace, has only whitespace on either side, and neither starts nor ends with whitespace |
| Whitespace.StripEmptyIffAllSpace | parser.py:58 | Stripping leaves nothing exactly when the text is whitespace only, which is the emptiness test of `parse` |
| Whitespace.StripIdempotent | parser.py:60 | Stripping the stored text again changes nothing |
| Expressions.FreeSymbolsAreMentions | parser.py:66-68 | A symbol is among the free symbols exactly when it occurs in the tree, so on a tree without binders the free-symbol check of `parse` and the `has(x)` test of the analyzer agree |
| Parser.Parse | parser.py:57-71 | Non-string or blank input is rejected with the empty-input error (and only that input is). On success the stored text is the stripped input, construction returned, the constructed expression has no free symbol but `x`, and the returned expression is its simplified form. A construction exception becomes the unreadable error carrying that exception. The other-symbol error means the constructed expression depends on another symbol |
| Parser.ParseAcceptsIff | parser.py:66-69 | Text is accepted iff it is not blank, construction returns, and the free symbols are a subset of `{x}`; constants are therefore accepted |
| Parser.BlankInputNeverConstructs | parser.py:58-59 | For blank or non-string input the verdict is the empty-input error under every library, so construction plays no part |
| Parser.AllowListNames | parser.py:6-43 | The allow-list's keys are exactly the listed function and constant names |
| Parser.AllowListSize | parser.py:6-43 | The allow-list has exactly 25 distinct names, both as the map's keys and as the listed names |
| Parser.LocalsNames | parser.py:55 | The name table is the allow-list plus `x` |
| Parser.LocalsSize | parser.py:55 | `x` is not allow-listed, so the name table has exactly 26 names |
| Parser.OnlyXIsVariable | parser.py:55 | `x` is the only name bound to the variable; every other name is a function or a constant |
| Parser.Aliases | parser.py:8-42 | `ln` and `log` resolve to the same function, as do `abs` and `Abs`; `E` and `pi` are bound to the two named constants, and no other name is bound to a constant |
| Analyzer.Domain | analyzer.py:23-28 | The domain is the discovered one when discovery returns; when it raises, every real is a member |
| Analyzer.SimplifiedReals | analyzer.py:40-44 | The loop over a finite solution set yields, in solver order, the exact form of each definitely real member (unknown reality excluded). It stops at the first conversion that raises, and then reports that exception, which belongs to the next definitely real member |
| Analyzer.SimplifiedRealsStops | analyzer.py:39-46 | Once the loop has raised, the remaining members change nothing |
| Analyzer.XIntercepts | analyzer.py:37-47 | No intercepts unless the solver returns a finite set. Otherwise each intercept is the exact form of the corresponding definitely real member, in order. Every definitely real member is reported when no conversion raises, and a shorter list stops exactly at a member whose conversion raised |
| Analyzer.CollectXIntercepts | analyzer.py:37-47 | The appending loop, with the handler around it, computes exactly the x-intercept list |
| Analyzer.YIntercept | analyzer.py:49-57 | A y-intercept is present iff 0 is in the domain, the substitution at 0 returns, its simplified value is definitely real and its exact form returns; it is then that exact form |
| Analyzer.StepsForValue | analyzer.py:59-95 | Only the first denominator test can raise out of point evaluation, and then with the exception of that substitution. If the denominator depends on `x` and is zero at `x0`, the division-by-zero narrative is returned. Division by zero is reported only if the denominator is zero at `x0`. A value is reported iff the denominator test did not fire and evaluation returned, with the substitution narrative. The generic message appears only when evaluation raised and the denominator was not found zero, and it carries the exception. Every narrative has one of these three shapes |
| Analyzer.DenominatorCheckedFirst | analyzer.py:62-71 | When the `x`-dependent denominator vanishes, the outcome does not depend on how the library would evaluate the expression, so evaluation is never attempted |
| Analyzer.SecondCheckNeedsConstantDenominator | analyzer.py:82-95 | With an `x`-dependent denominator that the first test found non-zero, a failed evaluation is reported with the generic message. The re-check can only matter for denominators free of `x` |
| Analyzer.StepsYIntercept | analyzer.py:97-101 | The "not defined at 0" message appears iff 0 is not in the domain. The narrative raises iff the membership test raises, or 0 is in the domain and the first denominator test at 0 raises; the exception is the membership test's when it raised, and otherwise the denominator test's. Otherwise it is the header followed by the evaluation narrative at 0 |
| Analyzer.StepsXIntercepts | analyzer.py:104-121 | The narrative is the three header lines plus exactly one closing line. A solution line is never empty. For a finite set, "no real solutions" appears iff no member is definitely real; a solution line holds the exact form of every definitely real member, in order; the exception line carries the exception of the first of those conversions that raised. The non-finite message appears iff the solver returned another kind of set, and shows that set. A solver exception gives the exception message |
| Analyzer.XInterceptsAgreeWithNarrative | analyzer.py:109-116 | A solution line lists exactly the x-intercepts. Intercepts exist without that line only when a conversion raised part-way, and the narrative then shows that exception. Otherwise the intercept list is non-empty iff the solution line is present |
| Analyzer.Analyze | analyzer.py:123-149 | Analysis raises exactly in the cases `AnalysisRaises` lists; the escaping exception is the point evaluation's when it raised, since it runs first, and otherwise the y narrative's. On success the expression is the simplified input, the point narrative is absent iff no point was given, both intercept narratives are present, and the y narrative is "not defined at 0" iff 0 is not in the domain. Each field is its own computation over that expression and the domain: the domain, the x-intercept list, the y-intercept, both intercept narratives and the point narrative's lines, so a failing call degrades only its field |
| Analyzer.DomainFallsBackToReals | analyzer.py:23-28 | The reported domain is the discovered one, or all reals when discovery raised; in that case the y narrative evaluates at 0 |
| Analyzer.RangeSentinel | analyzer.py:30-35 | Through `_range` and the report's range field (analyzer.py:131), the range shows the "not determined" sentinel iff range discovery over the domain raised, and otherwise shows the discovered range |
| Analyzer.YInterceptImpliesNarrative | analyzer.py:97-101 | A reported y-intercept implies 0 is in the domain and the y narrative is the evaluation at 0 |
| Analyzer.ReportInterceptsMatchNarrative | analyzer.py:127-139 | In the report, a solution line lists exactly the intercepts. Unless a conversion raised, the intercept list is non-empty iff that line is present |
| Plotter.NewPlotter | plotter.py:18-20 | Building a plotter fails iff converting the simplified expression to a numeric function raises, and the failure carries that exception. Otherwise the plotter holds the simplified expression and that function |
| Plotter.AdjustWindow | plotter.py:39-46 | Without a point the window is unchanged. The window only widens. A side moves iff the point lies beyond it, and then to the point plus or minus the margin of 2 |
| Plotter.AdjustedWindowContainsPoint | plotter.py:41-46 | After adjustment an ordered window contains the point and stays ordered, and a moved side lies exactly the margin away from the point |
| Plotter.AdjustWindowIdempotent | plotter.py:41-46 | Adjusting an adjusted window for the same point changes nothing, for every window |
| Plotter.DefaultWindowWidensToSeventeen | plotter.py:37-46 | With the default window (-10, 10) and the point 15, only the right side moves, to 17 |
| Plotter.CandidatesSpanWindow | plotter.py:24-26 | With at least two samples the first abscissa is `xmin` and the last is `xmax`, in exact arithmetic |
| Plotter.CandidatesIncrease | plotter.py:24-26 | Over a window with `xmin < xmax` the abscissae strictly increase |
| Plotter.SamplePoints | plotter.py:22-35 | Sampling raises iff `n == 1`. Otherwise the abscissae are the candidates whose sample is a finite float, in order and without placeholders, each paired with the value returned there; the two lists have equal length |
| Plotter.SampledCurveShape | plotter.py:22-35 | The curve has at most `n` points, its abscissae strictly increase over a window with `xmin < xmax`, and a candidate is kept iff its sample is usable |
| Plotter.MarkerValue | plotter.py:56-65 | The returned y-value is present iff a point was given and its exact evaluation returned, and it is that float, finite or not |
| Plotter.MarkerAgreesWithPointEvaluation | plotter.py:56-65 | The marker's y-value is the value the analyzer's point evaluation reports whenever it reports one; unless the first denominator test raises or fires, both are present together and equal |
| Plotter.MakeFigure | plotter.py:37-69 | The returned point is the caller's point. The window is the adjusted one, and the curve is the usable samples of 1000 abscissae over it. The y-value is as `MarkerValue` says. A marker is placed iff that value is a finite float, at the caller's point |

## Left out

- The graphical front-end (`gui.py`) is not part of this model: widget
  construction, the keypad, cursor editing, dialogs, and the parsing of the
  x-value text (including the comma-to-dot rewrite) are UI work.
- Figure construction, axes, annotation, layout and `save_png` are rendering
  and file output. The plot result holds the sampled curve and the marker in
  place of the figure.
- SymPy itself is not modelled. `sympify`, `simplify`, `continuous_domain`,
  `function_range`, `solveset`, `nsimplify`, `fraction`, `subs`, `N`, `float`,
  `is_real` and `lambdify` are fields of `Sympy.Library`. Each is a function
  of its arguments, so two calls with the same arguments agree; the model
  relies on this when it relates the x-intercept list to the narrative.
- Sets computed by the library are opaque handles. Membership asks the
  library, except for the set of all reals, which contains every real.
- The expression tree has no relational nodes, so the conditions of
  `Piecewise` are not represented. Only free symbols, occurrence of `x` and
  the denominator split matter to the program, and the split comes from the
  library.
- Exceptions are not modelled from `simplify`, `sstr`, `str`, `is_real`,
  `fraction`, `has`, or the drawing calls inside the marker's handler. They
  are display or rendering steps, or library calls treated as total.
  `simplify` runs unguarded in `parse` (parser.py:71), in the analyzer's
  constructor (analyzer.py:21) and in the plotter's (plotter.py:19).
- Parser.ParseAcceptsIff: with `simplify` total, acceptance depends only on
  blankness, construction and free symbols; a `parse` that raises from
  simplification after construction returned is not covered.
- Parser.Parse: construction is modelled as returning an expression or
  raising. For text such as `x, 1` the library evaluates to a tuple (or a
  list or a string) without raising. `parse` then fails with an
  `AttributeError` at `expr.free_symbols` (parser.py:67), outside its
  handler, and the model has no verdict for that case.
- Binding constructs (`Integral`, `Sum`, `Lambda`, ...) are not in the tree.
  `sympify` can build them, since the allow-list is not enforced. Under a
  binder a symbol can occur without being free, so `has(x)` and the
  free-symbol test can disagree there.
- Floating point is not modelled. Window arithmetic and abscissae use exact
  reals, so rounding of `step` and of `xmin + i * step` is not represented.
  Float results are tagged finite, infinite or NaN. Comparisons with a NaN
  point are not represented.
- Message text and number formatting are not modelled. Each narrative line
  is a `Line` variant carrying the values it shows. The Spanish wording and
  the `\n` joining are left out.
- Analyzer.ReportInterceptsMatchNarrative: the list is non-empty iff the
  narrative lists real solutions only when no exact-form conversion raises.
  The two computations run the same loop but catch its exception
  differently. The list keeps the values collected before the exception, and
  the narrative reports the exception instead. The lemma states exactly what
  holds in that case.
- Python's distinction between `0` and `0.0` at the y-axis substitution is
  not represented; both are the real 0.

=== FILE: analyzer.dfy ===
/** The function analyzer: domain, range, intercepts and the step-by-step
    narratives, each field degrading on its own when the library fails. */
module Analyzer {
  import opened Outcomes
  import opened Expressions
  import opened Sympy
  import opened Seqs

  /** One line of a narrative. The wording and number formatting of each
      line are not modelled; a line records which message it is and the
      values it shows. */
  datatype Line =
    | ShowFunction(f: Expr)                        // f(x) = ...
    | Substituted(at: real, sub: Expr)             // substituting x = x0 gives f(x0) = ...
    | Approximated(at: real, approx: Float)        // numeric value f(x0) ~ ...
    | DenominatorVanishes(at: real, denominator: Expr)
    | UndefinedByDivision(at: real)                // not defined at x0 (division by zero)
    | NotEvaluable(at: real, cause: Exc)           // could not evaluate at x0
    | NoYIntercept                                 // not defined at x = 0, no y-intercept
    | YInterceptHeader                             // y-axis intersection (x = 0):
    | XInterceptsHeader                            // x-axis intersections (solve f(x) = 0):
    | SolveForZero                                 // solve: f(x) = 0
    | RealSolutions(solutions: seq<Expr>)          // real solutions in the domain: x = ...
    | NoRealSolutions                              // no real solutions in the domain
    | NotAFiniteSet(solution: SetValue)            // no finite symbolic set was obtained
    | NotSolvable(cause: Exc)                      // could not solve symbolically

  /** A point-evaluation narrative and the numeric value, when there is one. */
  datatype Evaluation = Evaluation(lines: seq<Line>, value: Option<Float>)

  /** The range field: a set, or the fixed "not determined" sentinel. */
  datatype RangeText = Shown(range: SetValue) | NotDetermined

  /** The analysis report. Each displayed string is kept as the value it
      displays. */
  datatype Report = Report(
    expr: Expr,
    domain: SetValue,
    range: RangeText,
    xIntercepts: seq<Expr>,
    yIntercept: Option<Expr>,
    stepsForX: Option<seq<Line>>,
    stepsY: Option<seq<Line>>,
    stepsX: Option<seq<Line>>)

  /** The domain: the discovered continuous domain, or all reals when
      discovery raises. */
  function Domain(lib: Library, e: Expr): (d: SetValue)
    ensures lib.continuousDomain(e).Success? ==> d == lib.continuousDomain(e).value
    ensures lib.continuousDomain(e).Failure? ==> forall v :: Member(lib, d, v) == Success(true)
  {
    match lib.continuousDomain(e)
    case Success(s) => s
    case Failure(_) => Reals
  }

  /** The range over the domain, or `None` when range discovery raises. */
  function Range(lib: Library, e: Expr, d: SetValue): Option<SetValue>
  {
    match lib.functionRange(e, d)
    case Success(s) => Some(s)
    case Failure(_) => None
  }

  /** Whether a solution is definitely real (`is_real` is true, not unknown). */
  function RealTest(lib: Library): Expr -> bool
  {
    m => lib.isReal(m) == Some(true)
  }

  /** The loop over a finite solution set: the exact form of each definitely
      real member, in the set's order, up to the first member whose
      exact-form conversion raises; that exception, if any, comes second. */
  function SimplifiedReals(lib: Library, ms: seq<Expr>): (r: (seq<Expr>, Option<Exc>))
    ensures |r.0| <= |Filter(RealTest(lib), ms)|
    ensures forall i :: 0 <= i < |r.0| ==> lib.nsimplify(Filter(RealTest(lib), ms)[i]) == Success(r.0[i])
    ensures r.1.None? ==> |r.0| == |Filter(RealTest(lib), ms)|
    ensures r.1.Some? ==>
              |r.0| < |Filter(RealTest(lib), ms)|
              && lib.nsimplify(Filter(RealTest(lib), ms)[|r.0|]) == Failure(r.1.value)
    decreases |ms|
  {
    if |ms| == 0 then ([], None)
    else
      var init := ms[..|ms| - 1];
      var m := ms[|ms| - 1];
      var prefix := SimplifiedReals(lib, init);
      assert Filter(RealTest(lib), ms) ==
             Filter(RealTest(lib), init) + (if RealTest(lib)(m) then [m] else []);
      if prefix.1.Some? || !RealTest(lib)(m) then prefix
      else
        match lib.nsimplify(m)
        case Success(v) => (prefix.0 + [v], None)
        case Failure(err) => (prefix.0, Some(err))
  }

  /** One more member of the solution set: one more turn of the loop. */
  lemma SimplifiedRealsStep(lib: Library, ms: seq<Expr>, i: nat)
    requires i < |ms|
    ensures SimplifiedReals(lib, ms[..i + 1]) ==
            var prefix := SimplifiedReals(lib, ms[..i]);
            if prefix.1.Some? || lib.isReal(ms[i]) != Some(true) then prefix
            else if lib.nsimplify(ms[i]).Success? then (prefix.0 + [lib.nsimplify(ms[i]).value], None)
            else (prefix.0, Some(lib.nsimplify(ms[i]).error))
  {
    assert ms[..i + 1][..i] == ms[..i];
  }

  /** Once the loop has raised, later members change nothing. */
  lemma {:induction false} SimplifiedRealsStops(lib: Library, ms: seq<Expr>, k: nat)
    requires k <= |ms|
    requires SimplifiedReals(lib, ms[..k]).1.Some?
    ensures SimplifiedReals(lib, ms) == SimplifiedReals(lib, ms[..k])
    decreases |ms| - k
  {
    if k < |ms| {
      assert ms[..k + 1][..k] == ms[..k];
      SimplifiedRealsStops(lib, ms, k + 1);
    } else {
      assert ms[..k] == ms;
    }
  }

  /** The x-intercepts: for a finite solution set, the exact forms of its
      definitely real members in order (unknown reality is excluded),
      stopping early if a conversion raises; for any other outcome, none. */
  function XIntercepts(lib: Library, e: Expr, d: SetValue): (r: seq<Expr>)
    ensures !lib.solveset(e, d).FiniteSet? ==> r == []
    ensures lib.solveset(e, d).FiniteSet? ==>
              var reals := Filter(RealTest(lib), lib.solveset(e, d).members);
              |r| <= |reals| && forall i :: 0 <= i < |r| ==> lib.nsimplify(reals[i]) == Success(r[i])
    // every definitely real solution is reported when no conversion raises
    ensures lib.solveset(e, d).FiniteSet? ==>
              var reals := Filter(RealTest(lib), lib.solveset(e, d).members);
              (forall i :: 0 <= i < |reals| ==> lib.nsimplify(reals[i]).Success?) ==> |r| == |reals|
    // a shorter list stops exactly at a conversion that raised
    ensures lib.solveset(e, d).FiniteSet? ==>
              var reals := Filter(RealTest(lib), lib.solveset(e, d).members);
              |r| < |reals| ==> lib.nsimplify(reals[|r|]).Failure?
  {
    match lib.solveset(e, d)
    case FiniteSet(ms) => SimplifiedReals(lib, ms).0
    case _ => []
  }

  /** The source's `for` loop over the solution set, appending as it goes;
      an exception from the exact-form conversion ends the loop and the
      values collected so far are returned. */
  method CollectXIntercepts(lib: Library, e: Expr, d: SetValue) returns (vals: seq<Expr>)
    ensures vals == XIntercepts(lib, e, d)
  {
    vals := [];
    match lib.solveset(e, d)
    case FiniteSet(ms) =>
      assert XIntercepts(lib, e, d) == SimplifiedReals(lib, ms).0;
      var i := 0;
      while i < |ms|
        invariant 0 <= i <= |ms|
        invariant SimplifiedReals(lib, ms[..i]) == (vals, None)
      {
        var m := ms[i];
        SimplifiedRealsStep(lib, ms, i);
        if lib.isReal(m) == Some(true) {
          match lib.nsimplify(m)
          case Success(v) =>
            vals := vals + [v];
          case Failure(_) =>
            SimplifiedRealsStops(lib, ms, i + 1);
            return;
        }
        i := i + 1;
      }
      assert ms[..i] == ms;
    case OtherSet(_) =>
    case SolveRaises(_) =>
  }

  /** The y-intercept: present exactly when 0 is in the domain, the
      substitution returns, its simplified value is definitely real and its
      exact-form conversion returns; any exception leaves it absent. */
  function YIntercept(lib: Library, e: Expr, d: SetValue): (r: Option<Expr>)
    ensures r.Some? <==>
              && Member(lib, d, 0.0) == Success(true)
              && lib.subs(e, 0.0).Success?
              && lib.isReal(lib.simplify(lib.subs(e, 0.0).value)) == Some(true)
              && lib.nsimplify(lib.simplify(lib.subs(e, 0.0).value)).Success?
    ensures r.Some? ==> lib.nsimplify(lib.simplify(lib.subs(e, 0.0).value)) == Success(r.value)
  {
    if Member(lib, d, 0.0) != Success(true) then None
    else
      match lib.subs(e, 0.0)
      case Failure(_) => None
      case Success(s) =>
        var val := lib.simplify(s);
        if lib.isReal(val) != Some(true) then None
        else
          match lib.nsimplify(val)
          case Success(v) => Some(v)
          case Failure(_) => None
  }

  /** Whether the denominator is zero at `x0`: substitute, compare with 0. */
  function DenominatorZeroAt(lib: Library, e: Expr, x0: real): Attempt<bool>
  {
    match lib.subs(Denominator(lib, e), x0)
    case Failure(err) => Failure(err)
    case Success(v) => Success(lib.isZero(v))
  }

  /** The first denominator test raises: it runs outside any handler. */
  predicate FirstCheckRaises(lib: Library, e: Expr, x0: real)
  {
    Mentions(Denominator(lib, e), X) && DenominatorZeroAt(lib, e, x0).Failure?
  }

  /** The first denominator test fires: the denominator depends on `x` and
      is zero at `x0`. */
  predicate FirstCheckFires(lib: Library, e: Expr, x0: real)
  {
    Mentions(Denominator(lib, e), X) && DenominatorZeroAt(lib, e, x0) == Success(true)
  }

  function DivisionByZero(e: Expr, x0: real, denom: Expr): Evaluation
  {
    Evaluation([ShowFunction(e), DenominatorVanishes(x0, denom), UndefinedByDivision(x0)], None)
  }

  function SubstitutionSteps(e: Expr, x0: real, sub: Expr, v: Float): Evaluation
  {
    Evaluation([ShowFunction(e), Substituted(x0, sub), Approximated(x0, v)], Some(v))
  }

  function NotEvaluableSteps(x0: real, cause: Exc): Evaluation
  {
    Evaluation([NotEvaluable(x0, cause)], None)
  }

  /** Point evaluation at `x0`. The denominator is checked first; then the
      substitution and numeric value are attempted; if that raises, the
      denominator is checked again, this time whether or not it depends on
      `x`; failing both, the generic message carries the cause. */
  function StepsForValue(lib: Library, e: Expr, x0: real): (r: Attempt<Evaluation>)
    // only the first denominator test can let an exception escape
    ensures r.Failure? <==> FirstCheckRaises(lib, e, x0)
    // and the exception is that substitution's
    ensures r.Failure? ==> r.error == DenominatorZeroAt(lib, e, x0).error
    // a zero denominator that depends on x wins over everything else
    ensures FirstCheckFires(lib, e, x0) ==> r == Success(DivisionByZero(e, x0, Denominator(lib, e)))
    // division by zero is reported only when the denominator is zero at x0
    ensures r == Success(DivisionByZero(e, x0, Denominator(lib, e))) ==>
              DenominatorZeroAt(lib, e, x0) == Success(true)
    // a value is reported exactly when the evaluation returned, with its
    // substituted form, and then it is that evaluation's value
    ensures r.Success? && r.value.value.Some? <==>
              !FirstCheckRaises(lib, e, x0) && !FirstCheckFires(lib, e, x0) && ExactValue(lib, e, x0).Success?
    ensures r.Success? && r.value.value.Some? ==>
              r.value == SubstitutionSteps(e, x0, ExactValue(lib, e, x0).value.0, ExactValue(lib, e, x0).value.1)
    // the generic message appears only when evaluation raised and the
    // denominator was not found to be zero, and it carries that exception
    ensures r.Success? && |r.value.lines| > 0 && r.value.lines[0].NotEvaluable? ==>
              && ExactValue(lib, e, x0).Failure?
              && DenominatorZeroAt(lib, e, x0) != Success(true)
              && r.value == NotEvaluableSteps(x0, ExactValue(lib, e, x0).error)
    // every narrative is one of the three shapes
    ensures r.Success? ==>
              || r.value == DivisionByZero(e, x0, Denominator(lib, e))
              || (ExactValue(lib, e, x0).Success? &&
                  r.value == SubstitutionSteps(e, x0, ExactValue(lib, e, x0).value.0, ExactValue(lib, e, x0).value.1))
              || (ExactValue(lib, e, x0).Failure? && r.value == NotEvaluableSteps(x0, ExactValue(lib, e, x0).error))
  {
    var denom := Denominator(lib, e);
    var first := if Mentions(denom, X) then DenominatorZeroAt(lib, e, x0) else Success(false);
    match first
    case Failure(err) => Failure(err)
    case Success(zero) =>
      if zero then Success(DivisionByZero(e, x0, denom))
      else
        match ExactValue(lib, e, x0)
        case Success(pair) => Success(SubstitutionSteps(e, x0, pair.0, pair.1))
        case Failure(err) =>
          if DenominatorZeroAt(lib, e, x0) == Success(true) then Success(DivisionByZero(e, x0, denom))
          else Success(NotEvaluableSteps(x0, err))
  }

  /** When the denominator depends on `x` and vanishes at `x0`, evaluation is
      never attempted: two libraries that agree on the denominator test give
      the same narrative whatever their substitution does elsewhere. */
  lemma DenominatorCheckedFirst(lib1: Library, lib2: Library, e: Expr, x0: real)
    requires FirstCheckFires(lib1, e, x0)
    requires lib2.fraction(e) == lib1.fraction(e)
    requires DenominatorZeroAt(lib2, e, x0) == Success(true)
    ensures StepsForValue(lib1, e, x0) == StepsForValue(lib2, e, x0)
  {
  }

  /** The second denominator test can only change the outcome when the
      denominator does not depend on `x`: with an `x`-dependent denominator
      the first test already answered, so a failed evaluation is reported
      as not evaluable. */
  lemma SecondCheckNeedsConstantDenominator(lib: Library, e: Expr, x0: real)
    requires Mentions(Denominator(lib, e), X)
    requires DenominatorZeroAt(lib, e, x0) == Success(false)
    requires ExactValue(lib, e, x0).Failure?
    ensures StepsForValue(lib, e, x0) == Success(NotEvaluableSteps(x0, ExactValue(lib, e, x0).error))
  {
  }

  /** The y-intercept narrative: "not defined at 0" exactly when 0 is not in
      the domain; otherwise a header followed by the evaluation at 0. An
      exception from the membership test or the first denominator test
      escapes. */
  function StepsYIntercept(lib: Library, e: Expr, d: SetValue): (r: Attempt<seq<Line>>)
    ensures r == Success([NoYIntercept]) <==> Member(lib, d, 0.0) == Success(false)
    ensures r.Failure? <==>
              Member(lib, d, 0.0).Failure? || (Member(lib, d, 0.0) == Success(true) && FirstCheckRaises(lib, e, 0.0))
    ensures r.Failure? ==>
              r.error == if Member(lib, d, 0.0).Failure? then Member(lib, d, 0.0).error
                         else StepsForValue(lib, e, 0.0).error
    ensures Member(lib, d, 0.0) == Success(true) && r.Success? ==>
              r.value == [YInterceptHeader] + StepsForValue(lib, e, 0.0).value.lines
  {
    match Member(lib, d, 0.0)
    case Failure(err) => Failure(err)
    case Success(inDomain) =>
      if !inDomain then Success([NoYIntercept])
      else
        match StepsForValue(lib, e, 0.0)
        case Failure(err) => Failure(err)
        case Success(ev) => Success([YInterceptHeader] + ev.lines)
  }

  /** The three header lines of the x-intercept narrative. */
  function XHeader(e: Expr): seq<Line>
  {
    [XInterceptsHeader, ShowFunction(e), SolveForZero]
  }

  /** The x-intercept narrative: the header and exactly one closing line,
      chosen by the solver outcome. */
  function StepsXIntercepts(lib: Library, e: Expr, d: SetValue): (r: seq<Line>)
    ensures |r| == 4 && r[..3] == XHeader(e)
    ensures r[3].RealSolutions? || r[3].NoRealSolutions? || r[3].NotAFiniteSet? || r[3].NotSolvable?
    ensures r[3].RealSolutions? ==> r[3].solutions != []
    ensures r[3].NoRealSolutions? ==> lib.solveset(e, d).FiniteSet?
    ensures r[3].NotAFiniteSet? <==> lib.solveset(e, d).OtherSet?
    ensures r[3].NotAFiniteSet? ==> r[3].solution == lib.solveset(e, d).s
    ensures lib.solveset(e, d).SolveRaises? ==> r[3] == NotSolvable(lib.solveset(e, d).error)
    // for a finite set: "no real solutions" exactly when no member is
    // definitely real; the solution line holds every exact form, in order;
    // the exception line carries the exception of the first conversion
    // that raised
    ensures lib.solveset(e, d).FiniteSet? ==>
              var reals := Filter(RealTest(lib), lib.solveset(e, d).members);
              && (r[3] == NoRealSolutions <==> reals == [])
              && (r[3].RealSolutions? ==>
                    && |r[3].solutions| == |reals|
                    && forall i :: 0 <= i < |reals| ==> lib.nsimplify(reals[i]) == Success(r[3].solutions[i]))
              && (r[3].NotSolvable? ==>
                    exists i :: 0 <= i < |reals|
                      && (forall j :: 0 <= j < i ==> lib.nsimplify(reals[j]).Success?)
                      && lib.nsimplify(reals[i]) == Failure(r[3].cause))
  {
    match lib.solveset(e, d)
    case FiniteSet(ms) =>
      var (reales, err) := SimplifiedReals(lib, ms);
      if err.Some? then XHeader(e) + [NotSolvable(err.value)]
      else if reales != [] then XHeader(e) + [RealSolutions(reales)]
      else XHeader(e) + [NoRealSolutions]
    case OtherSet(s) => XHeader(e) + [NotAFiniteSet(s)]
    case SolveRaises(err) => XHeader(e) + [NotSolvable(err)]
  }

  /** The x-intercept list and its narrative agree: a "real solutions" line
      lists exactly the intercepts; intercepts appear without that line only
      when an exact-form conversion raised part-way; when no conversion
      raises, the list is non-empty exactly when the line is there. */
  lemma XInterceptsAgreeWithNarrative(lib: Library, e: Expr, d: SetValue)
    ensures var r := StepsXIntercepts(lib, e, d);
            r[3].RealSolutions? ==> r[3].solutions == XIntercepts(lib, e, d)
    ensures var r := StepsXIntercepts(lib, e, d);
            XIntercepts(lib, e, d) != [] && !r[3].RealSolutions? ==>
              lib.solveset(e, d).FiniteSet? && SimplifiedReals(lib, lib.solveset(e, d).members).1.Some?
              && r[3] == NotSolvable(SimplifiedReals(lib, lib.solveset(e, d).members).1.value)
    ensures var r := StepsXIntercepts(lib, e, d);
            !r[3].NotSolvable? ==> (XIntercepts(lib, e, d) != [] <==> r[3].RealSolutions?)
  {
  }

  /** Whether analysis raises: from the point evaluation's first denominator
      test, from the membership test of 0 in the domain, or from the first
      denominator test at 0. */
  predicate AnalysisRaises(lib: Library, e: Expr, xValue: Option<real>)
  {
    var d := Domain(lib, e);
    || (xValue.Some? && FirstCheckRaises(lib, e, xValue.value))
    || Member(lib, d, 0.0).Failure?
    || (Member(lib, d, 0.0) == Success(true) && FirstCheckRaises(lib, e, 0.0))
  }

  /** The whole analysis of a parsed expression, with an optional point. */
  function Analyze(lib: Library, input: Expr, xValue: Option<real>): (r: Attempt<Report>)
    ensures r.Failure? <==> AnalysisRaises(lib, lib.simplify(input), xValue)
    // the point evaluation runs before the y narrative, so its exception wins
    ensures r.Failure? ==>
              var e := lib.simplify(input);
              r.error == if xValue.Some? && StepsForValue(lib, e, xValue.value).Failure?
                         then StepsForValue(lib, e, xValue.value).error
                         else StepsYIntercept(lib, e, Domain(lib, e)).error
    ensures r.Success? ==> r.value.expr == lib.simplify(input)
    ensures r.Success? ==> (r.value.stepsForX.None? <==> xValue.None?)
    ensures r.Success? ==> r.value.stepsY.Some? && r.value.stepsX.Some?
    ensures r.Success? ==>
              (r.value.stepsY == Some([NoYIntercept]) <==> Member(lib, r.value.domain, 0.0) == Success(false))
    // each field is its own computation over the simplified expression and
    // the domain, so a failing library call degrades that field alone
    ensures r.Success? ==>
              var e := lib.simplify(input);
              && r.value.domain == Domain(lib, e)
              && r.value.xIntercepts == XIntercepts(lib, e, r.value.domain)
              && r.value.yIntercept == YIntercept(lib, e, r.value.domain)
              && r.value.stepsY == Some(StepsYIntercept(lib, e, r.value.domain).value)
              && r.value.stepsX == Some(StepsXIntercepts(lib, e, r.value.domain))
              && (xValue.Some? ==> r.value.stepsForX == Some(StepsForValue(lib, e, xValue.value).value.lines))
  {
    var e := lib.simplify(input);
    var dom := Domain(lib, e);
    var rng := Range(lib, e, dom);
    var xints := XIntercepts(lib, e, dom);
    var yint := YIntercept(lib, e, dom);
    var rangeText := if rng.Some? then Shown(rng.value) else NotDetermined;
    var steps: Attempt<Option<seq<Line>>> :=
      if xValue.None? then Success(None)
      else (match StepsForValue(lib, e, xValue.value)
            case Failure(err) => Failure(err)
            case Success(ev) => Success(Some(ev.lines)));
    match steps
    case Failure(err) => Failure(err)
    case Success(stepsForX) =>
      match StepsYIntercept(lib, e, dom)
      case Failure(err) => Failure(err)
      case Success(stepsY) =>
        Success(Report(e, dom, rangeText, xints, yint, stepsForX, Some(stepsY), Some(StepsXIntercepts(lib, e, dom))))
  }

  /** The domain field is the discovered domain, or all reals when discovery
      raised; in that case 0 is in it and the y narrative evaluates at 0. */
  lemma DomainFallsBackToReals(lib: Library, input: Expr, xValue: Option<real>)
    requires Analyze(lib, input, xValue).Success?
    ensures var rep := Analyze(lib, input, xValue).value;
            var found := lib.continuousDomain(lib.simplify(input));
            && (found.Success? ==> rep.domain == found.value)
            && (found.Failure? ==> rep.domain == Reals && rep.stepsY.value[0] == YInterceptHeader)
  {
  }

  /** The range field shows the sentinel exactly when range discovery over
      the domain raised, and otherwise shows the discovered range. */
  lemma RangeSentinel(lib: Library, input: Expr, xValue: Option<real>)
    requires Analyze(lib, input, xValue).Success?
    ensures var rep := Analyze(lib, input, xValue).value;
            && (rep.range.NotDetermined? <==> lib.functionRange(rep.expr, rep.domain).Failure?)
            && (rep.range.Shown? ==> lib.functionRange(rep.expr, rep.domain) == Success(rep.range.range))
  {
  }

  /** A reported y-intercept implies 0 is in the domain and the y narrative
      is the evaluation at 0, not the "not defined" message. */
  lemma YInterceptImpliesNarrative(lib: Library, input: Expr, xValue: Option<real>)
    requires Analyze(lib, input, xValue).Success?
    ensures var rep := Analyze(lib, input, xValue).value;
            rep.yIntercept.Some? ==>
              Member(lib, rep.domain, 0.0) == Success(true) && rep.stepsY.value[0] == YInterceptHeader
  {
  }

  /** In the report, the x-intercept list is non-empty exactly when the x
      narrative lists real solutions, unless an exact-form conversion raised;
      the listed solutions are the intercepts. */
  lemma ReportInterceptsMatchNarrative(lib: Library, input: Expr, xValue: Option<real>)
    requires Analyze(lib, input, xValue).Success?
    ensures var rep := Analyze(lib, input, xValue).value;
            var last := rep.stepsX.value[3];
            && (last.RealSolutions? ==> last.solutions == rep.xIntercepts)
            && (!last.NotSolvable? ==> (rep.xIntercepts != [] <==> last.RealSolutions?))
  {
    var e := lib.simplify(input);
    XInterceptsAgreeWithNarrative(lib, e, Domain(lib, e));
  }
}

=== FILE: expressions.dfy ===
/** The symbolic expressions the parser builds: a small tree over real
    numbers, the two named constants, symbols, the allow-listed functions and
    the other non-binding functions the library resolves by name. */
module Expressions {

  /** The name of the one variable a function may depend on. */
  const X: string := "x"

  /** The functions of the parser's name table. */
  datatype Func =
    | Abs | Sqrt
    | Sin | Cos | Tan | Asin | Acos | Atan | Sec | Csc | Cot
    | Sinh | Cosh | Tanh
    | Exp | Log
    | Floor | Ceiling | Piecewise | Max | Min

  /** Euler's number and pi. */
  datatype NamedConst = E | Pi

  /** What a name in the parser's name table stands for. */
  datatype Binding = Function(f: Func) | Constant(c: NamedConst) | Variable

  /** A symbolic expression. Subtraction and division are sums and products
      with `-1` factors and `-1` powers, as SymPy stores them. */
  datatype Expr =
    | Num(r: real)
    | Const(c: NamedConst)
    | Symbol(name: string)
    | Add(left: Expr, right: Expr)
    | Mul(left: Expr, right: Expr)
    | Pow(base: Expr, exponent: Expr)
    | Apply(f: Func, args: seq<Expr>)
      // a function the name table does not list, which construction
      // resolves in the library's own namespace (`gamma`, `erf`, ...)
    | OtherFunction(name: string, args: seq<Expr>)

  /** The free symbols of an expression (SymPy's `free_symbols`). No
      construct of this tree binds a symbol. */
  function FreeSymbols(e: Expr): set<string>
    decreases e, 1
  {
    match e
    case Num(_) => {}
    case Const(_) => {}
    case Symbol(name) => {name}
    case Add(l, r) => FreeSymbols(l) + FreeSymbols(r)
    case Mul(l, r) => FreeSymbols(l) + FreeSymbols(r)
    case Pow(b, p) => FreeSymbols(b) + FreeSymbols(p)
    case Apply(_, args) => FreeSymbolsOfAll(args)
    case OtherFunction(_, args) => FreeSymbolsOfAll(args)
  }

  /** The free symbols of a list of arguments. */
  function FreeSymbolsOfAll(es: seq<Expr>): set<string>
    decreases es, 0
  {
    if |es| == 0 then {}
    else FreeSymbolsOfAll(es[..|es| - 1]) + FreeSymbols(es[|es| - 1])
  }

  /** Whether the symbol `n` occurs somewhere in `e` (SymPy's `has`). */
  predicate Mentions(e: Expr, n: string)
  {
    match e
    case Num(_) => false
    case Const(_) => false
    case Symbol(name) => name == n
    case Add(l, r) => Mentions(l, n) || Mentions(r, n)
    case Mul(l, r) => Mentions(l, n) || Mentions(r, n)
    case Pow(b, p) => Mentions(b, n) || Mentions(p, n)
    case Apply(_, args) => exists i :: 0 <= i < |args| && Mentions(args[i], n)
    case OtherFunction(_, args) => exists i :: 0 <= i < |args| && Mentions(args[i], n)
  }

  /** A symbol is free in an expression exactly when it occurs in it, so on
      this tree the parser's dependency check and the analyzer's `has` test
      agree. The tree has no binder (`Integral`, `Sum`, `Lambda`); under one,
      a symbol occurs without being free. */
  lemma {:induction false} FreeSymbolsAreMentions(e: Expr, n: string)
    ensures n in FreeSymbols(e) <==> Mentions(e, n)
    decreases e, 1
  {
    match e
    case Num(_) =>
    case Const(_) =>
    case Symbol(_) =>
    case Add(l, r) =>
      FreeSymbolsAreMentions(l, n);
      FreeSymbolsAreMentions(r, n);
    case Mul(l, r) =>
      FreeSymbolsAreMentions(l, n);
      FreeSymbolsAreMentions(r, n);
    case Pow(b, p) =>
      FreeSymbolsAreMentions(b, n);
      FreeSymbolsAreMentions(p, n);
    case Apply(_, args) =>
      FreeSymbolsOfAllAreMentions(args, n);
    case OtherFunction(_, args) =>
      FreeSymbolsOfAllAreMentions(args, n);
  }

  lemma {:induction false} FreeSymbolsOfAllAreMentions(es: seq<Expr>, n: string)
    ensures n in FreeSymbolsOfAll(es) <==> exists i :: 0 <= i < |es| && Mentions(es[i], n)
    decreases es, 0
  {
    if |es| > 0 {
      var init := es[..|es| - 1];
      FreeSymbolsOfAllAreMentions(init, n);
      FreeSymbolsAreMentions(es[|es| - 1], n);
      if exists i :: 0 <= i < |es| && Mentions(es[i], n) {
        var i :| 0 <= i < |es| && Mentions(es[i], n);
        if i < |es| - 1 {
          assert init[i] == es[i];
        }
      }
      if exists i :: 0 <= i < |init| && Mentions(init[i], n) {
        var i :| 0 <= i < |init| && Mentions(init[i], n);
        assert es[i] == init[i];
      }
    }
  }
}

=== FILE: outcomes.dfy ===
/** Optional values and results shared by every module of the model. */
module Outcomes {

  /** A value that may be absent: Python's `Optional[T]`, with `None` for `None`. */
  datatype Option<+T> = None | Some(value: T)

  /** Either a value or an error value. */
  datatype Result<+T, +E> = Success(value: T) | Failure(error: E)

  /** An exception raised by a library call, reduced to its message. */
  datatype Exc = Exc(detail: string)

  /** The outcome of a call that may raise: it returns a value or raises `Exc`. */
  type Attempt<+T> = Result<T, Exc>
}

=== FILE: parser.dfy ===
/** The expression parser: the closed name table and the validation chain
    that turns untrusted text into an expression in `x` alone. */
module Parser {
  import opened Outcomes
  import opened Expressions
  import opened Whitespace
  import Sympy

  /** The allow-listed names and what each stands for. */
  const AllowedFuncs: map<string, Binding> := map[
    "Abs" := Function(Abs), "abs" := Function(Abs), "sqrt" := Function(Sqrt),
    "sin" := Function(Sin), "cos" := Function(Cos), "tan" := Function(Tan),
    "asin" := Function(Asin), "acos" := Function(Acos), "atan" := Function(Atan),
    "sec" := Function(Sec), "csc" := Function(Csc), "cot" := Function(Cot),
    "sinh" := Function(Sinh), "cosh" := Function(Cosh), "tanh" := Function(Tanh),
    "exp" := Function(Exp), "log" := Function(Log), "ln" := Function(Log),
    "floor" := Function(Floor), "ceiling" := Function(Ceiling), "Piecewise" := Function(Piecewise),
    "Max" := Function(Max), "Min" := Function(Min),
    "E" := Constant(E), "pi" := Constant(Pi)
  ]

  /** The name table handed to `sympify`: the allow-list plus the variable. */
  const Locals: map<string, Binding> := AllowedFuncs[X := Variable]

  /** The 25 allow-listed names once more, grouped by length. These sets
      only serve the counting proof: `AllowListNames` shows they are exactly
      the keys of `AllowedFuncs`, and the length groups make their sizes and
      disjointness cheap to establish. */
  const AllowedNames: set<string> := ShortNames + ThreeLetterNames + FourLetterNames + LongNames
  const ShortNames: set<string> := {"E", "ln", "pi"}
  const ThreeLetterNames: set<string> :=
    {"Abs", "abs", "sin", "cos", "tan", "sec", "csc", "cot", "exp", "log", "Max", "Min"}
  const FourLetterNames: set<string> := {"sqrt", "asin", "acos", "atan", "sinh", "cosh", "tanh"}
  const LongNames: set<string> := {"floor", "ceiling", "Piecewise"}

  /** What the parser is given: text, or some non-string value. */
  datatype Input = Text(s: string) | NotText

  /** Why parsing failed: empty input, a construction that raised, or a
      dependence on a symbol other than `x`. */
  datatype ParseError = EmptyInput | Unreadable(cause: Exc) | DependsOnOtherSymbols

  /** A parsed function: its simplified expression and the stripped text. */
  datatype ParseResult = ParseResult(expr: Expr, text: string)

  /** The validation chain of `FunctionParser.parse`. */
  function Parse(lib: Sympy.Library, input: Input): (r: Result<ParseResult, ParseError>)
    ensures r == Failure(EmptyInput) <==> input.NotText? || AllSpace(input.s)
    ensures r.Success? ==>
              && input.Text?
              && r.value.text == Strip(input.s) && |r.value.text| > 0
              && lib.sympify(r.value.text, Locals).Success?
              && FreeSymbols(lib.sympify(r.value.text, Locals).value) <= {X}
              && r.value.expr == lib.simplify(lib.sympify(r.value.text, Locals).value)
    ensures r.Failure? && r.error.Unreadable? ==>
              input.Text? && lib.sympify(Strip(input.s), Locals) == Failure(r.error.cause)
    ensures r == Failure(DependsOnOtherSymbols) ==>
              input.Text? && lib.sympify(Strip(input.s), Locals).Success?
              && !(FreeSymbols(lib.sympify(Strip(input.s), Locals).value) <= {X})
  {
    if input.NotText? then Failure(EmptyInput)
    else
      StripEmptyIffAllSpace(input.s);
      var cleaned := Strip(input.s);
      if cleaned == [] then Failure(EmptyInput)
      else
        match lib.sympify(cleaned, Locals)
        case Failure(err) => Failure(Unreadable(err))
        case Success(expr) =>
          var free := FreeSymbols(expr);
          if free != {} && !(free <= {X}) then Failure(DependsOnOtherSymbols)
          else Success(ParseResult(lib.simplify(expr), cleaned))
  }

  /** Text is accepted exactly when it is not blank, its construction
      returns, and the constructed expression has no free symbol but `x`;
      a constant expression is accepted. */
  lemma ParseAcceptsIff(lib: Sympy.Library, s: string)
    ensures Parse(lib, Text(s)).Success? <==>
              && !AllSpace(s)
              && lib.sympify(Strip(s), Locals).Success?
              && FreeSymbols(lib.sympify(Strip(s), Locals).value) <= {X}
  {
    StripEmptyIffAllSpace(s);
  }

  /** Blank or non-string input is rejected before any construction: the
      verdict does not depend on the library at all. */
  lemma BlankInputNeverConstructs(lib1: Sympy.Library, lib2: Sympy.Library, input: Input)
    requires input.NotText? || AllSpace(input.s)
    ensures Parse(lib1, input) == Parse(lib2, input) == Failure(EmptyInput)
  {
  }

  /** The allow-list's names are exactly the listed ones. */
  lemma AllowListNames()
    ensures AllowedFuncs.Keys == AllowedNames
  {
  }

  /** Two sets of names separated by a length bound share no name. */
  lemma DisjointByLength(a: set<string>, b: set<string>, k: nat)
    requires forall n :: n in a ==> |n| < k
    requires forall n :: n in b ==> |n| >= k
    ensures |a + b| == |a| + |b|
  {
    assert a * b == {};
  }

  lemma ShortNamesShape() ensures |ShortNames| == 3 && forall n :: n in ShortNames ==> |n| < 3 {}
  lemma ThreeLetterNamesShape() ensures |ThreeLetterNames| == 12 && forall n :: n in ThreeLetterNames ==> |n| == 3 {}
  lemma FourLetterNamesShape() ensures |FourLetterNames| == 7 && forall n :: n in FourLetterNames ==> |n| == 4 {}
  lemma LongNamesShape() ensures |LongNames| == 3 && forall n :: n in LongNames ==> |n| >= 5 {}

  /** The allow-list holds 25 distinct names. */
  lemma AllowListSize()
    ensures |AllowedNames| == 25
    ensures |AllowedFuncs.Keys| == 25
  {
    AllowedNamesCount();
    AllowListNames();
  }

  /** The names grouped by length are 25 distinct names. */
  lemma AllowedNamesCount()
    ensures |AllowedNames| == 25
  {
    ShortNamesShape();
    ThreeLetterNamesShape();
    FourLetterNamesShape();
    LongNamesShape();
    var s, t, f, l := ShortNames, ThreeLetterNames, FourLetterNames, LongNames;
    DisjointByLength(s, t, 3);
    DisjointByLength(s + t, f, 4);
    DisjointByLength(s + t + f, l, 5);
  }

  /** The name table is the allow-list plus `x`. */
  lemma LocalsNames()
    ensures Locals.Keys == AllowedNames + {X}
  {
    AllowListNames();
  }

  /** `x` is not an allow-listed name, so the name table has 26 names. */
  lemma LocalsSize()
    ensures |Locals| == 26
  {
    LocalsNames();
    AllowedNamesCount();
    ShortNamesShape();
    ThreeLetterNamesShape();
    FourLetterNamesShape();
    LongNamesShape();
    var names := AllowedNames;
    assert X !in names;
    assert |names + {X}| == |names| + 1;
    assert |Locals| == |Locals.Keys|;
  }

  /** `x` is the only name bound to the variable; every other name is a
      function or one of the two constants. */
  lemma OnlyXIsVariable()
    ensures forall n :: n in Locals ==> (Locals[n] == Variable <==> n == X)
  {
  }

  /** `ln` is `log` and `abs` is `Abs`; `E` and `pi` are the constants. */
  lemma Aliases()
    ensures Locals["ln"] == Locals["log"] == Function(Log)
    ensures Locals["abs"] == Locals["Abs"] == Function(Abs)
    ensures Locals["E"] == Constant(E) && Locals["pi"] == Constant(Pi)
    ensures forall n :: n in Locals && Locals[n].Constant? ==> n == "E" || n == "pi"
  {
  }
}

=== FILE: plotter.dfy ===
/** The plot sampling policy: window widening around the requested point,
    evenly spaced abscissae, dropping unusable samples, and the marker. */
module Plotter {
  import opened Outcomes
  import opened Expressions
  import opened Sympy
  import opened Seqs
  import Analyzer

  /** How far beyond the requested point a widened window reaches. */
  const Margin: real := 2.0

  /** The number of abscissae `make_figure` samples. */
  const SampleCount: int := 1000

  /** The default window. */
  const DefaultWindow: Window := Window(-10.0, 10.0)

  datatype Window = Window(xmin: real, xmax: real)

  /** A sampled curve: abscissae and ordinates, position by position. */
  datatype Curve = Curve(xs: seq<real>, ys: seq<real>)

  /** A plotter: the simplified expression and its numeric function. */
  datatype FunctionPlotter = FunctionPlotter(expr: Expr, f: real -> Sample)

  /** What `make_figure` produces, with the curve and the marker standing in
      for the drawn figure. */
  datatype PlotResult = PlotResult(
    curve: Curve,
    window: Window,
    marker: Option<(real, real)>,
    xValue: Option<real>,
    yValue: Option<Float>)

  /** Building a plotter simplifies the expression and turns it into a
      numeric function; it fails exactly when that conversion raises. */
  function NewPlotter(lib: Library, expr: Expr): (r: Attempt<FunctionPlotter>)
    ensures r.Failure? <==> lib.lambdify(lib.simplify(expr)).Failure?
    ensures r.Failure? ==> r.error == lib.lambdify(lib.simplify(expr)).error
    ensures r.Success? ==>
              r.value.expr == lib.simplify(expr) && lib.lambdify(r.value.expr) == Success(r.value.f)
  {
    var e := lib.simplify(expr);
    match lib.lambdify(e)
    case Failure(err) => Failure(err)
    case Success(f) => Success(FunctionPlotter(e, f))
  }

  /** The window after taking the requested point into account: a side moves
      only when the point lies beyond it, and then to the point plus the
      margin; without a point nothing changes. */
  function AdjustWindow(w: Window, xValue: Option<real>): (r: Window)
    ensures xValue.None? ==> r == w
    ensures r.xmin <= w.xmin && w.xmax <= r.xmax
    ensures r.xmin != w.xmin <==> xValue.Some? && xValue.value < w.xmin
    ensures r.xmax != w.xmax <==> xValue.Some? && xValue.value > w.xmax
    ensures r.xmin != w.xmin ==> r.xmin == xValue.value - Margin
    ensures r.xmax != w.xmax ==> r.xmax == xValue.value + Margin
  {
    match xValue
    case None => w
    case Some(x0) =>
      var xmin := if x0 < w.xmin then x0 - Margin else w.xmin;
      var xmax := if x0 > w.xmax then x0 + Margin else w.xmax;
      Window(xmin, xmax)
  }

  /** After adjustment an ordered window contains the point, at least the
      margin away from any side that moved. */
  lemma AdjustedWindowContainsPoint(w: Window, x0: real)
    requires w.xmin <= w.xmax
    ensures var r := AdjustWindow(w, Some(x0));
            && r.xmin <= x0 <= r.xmax
            && r.xmin <= r.xmax
            && (r.xmin != w.xmin ==> x0 - r.xmin == Margin)
            && (r.xmax != w.xmax ==> r.xmax - x0 == Margin)
  {
  }

  /** Adjusting an adjusted window for the same point changes nothing: a
      moved side lies the margin beyond the point, so it is not moved again. */
  lemma AdjustWindowIdempotent(w: Window, xValue: Option<real>)
    ensures AdjustWindow(AdjustWindow(w, xValue), xValue) == AdjustWindow(w, xValue)
  {
  }

  /** A point at 15 with the default window widens only its right side, to 17. */
  lemma DefaultWindowWidensToSeventeen()
    ensures AdjustWindow(DefaultWindow, Some(15.0)) == Window(-10.0, 17.0)
  {
  }

  /** The spacing of `n` evenly spaced abscissae over `[xmin, xmax]`; with
      one sample the division by `n - 1` raises. */
  function Step(xmin: real, xmax: real, n: int): real
    requires n != 1
  {
    (xmax - xmin) / ((n - 1) as real)
  }

  /** The candidate abscissae: `xmin + i * step` for `i` in `0 .. n - 1`
      (none when `n <= 0`). */
  function Candidates(xmin: real, xmax: real, n: int): seq<real>
    requires n != 1
  {
    seq(if n < 0 then 0 else n, i => xmin + (i as real) * Step(xmin, xmax, n))
  }

  /** With at least two samples the first candidate is `xmin` and the last
      is `xmax`, in exact arithmetic. */
  lemma CandidatesSpanWindow(xmin: real, xmax: real, n: int)
    requires n >= 2
    ensures var cs := Candidates(xmin, xmax, n);
            cs[0] == xmin && cs[n - 1] == xmax
  {
  }

  /** Over a window with `xmin < xmax` the candidates strictly increase. */
  lemma CandidatesIncrease(xmin: real, xmax: real, n: int)
    requires n != 1
    requires xmin < xmax
    ensures StrictlyIncreasing(Candidates(xmin, xmax, n))
  {
    var cs := Candidates(xmin, xmax, n);
    if n > 1 {
      var step := Step(xmin, xmax, n);
      assert step > 0.0;
      forall i, j | 0 <= i < j < |cs|
        ensures cs[i] < cs[j]
      {
        assert cs[j] - cs[i] == ((j - i) as real) * step;
      }
    }
  }

  /** A sample is usable when the numeric function returned a finite float:
      not an exception, not `None`, not complex, not infinite or NaN. */
  predicate Usable(s: Sample)
  {
    s.Number? && s.y.Finite?
  }

  /** The test `sample_points` applies at each abscissa. */
  function Keeps(f: real -> Sample): real -> bool
  {
    c => Usable(f(c))
  }

  /** The sampled curve: the usable candidates, in order and without
      placeholders, each with the finite value the function returned there;
      with one sample the step division raises. */
  method SamplePoints(f: real -> Sample, xmin: real, xmax: real, n: int) returns (r: Attempt<Curve>)
    ensures r.Failure? <==> n == 1
    ensures r.Success? ==> r.value.xs == Filter(Keeps(f), Candidates(xmin, xmax, n))
    ensures r.Success? ==> |r.value.xs| == |r.value.ys|
    ensures r.Success? ==>
              forall k :: 0 <= k < |r.value.xs| ==> f(r.value.xs[k]) == Number(Finite(r.value.ys[k]))
  {
    if n == 1 {
      return Failure(Exc("float division by zero"));
    }
    var cs := Candidates(xmin, xmax, n);
    var xs: seq<real> := [];
    var ys: seq<real> := [];
    var i := 0;
    while i < n
      invariant 0 <= i <= |cs|
      invariant xs == Filter(Keeps(f), cs[..i])
      invariant |xs| == |ys|
      invariant forall k :: 0 <= k < |xs| ==> f(xs[k]) == Number(Finite(ys[k]))
    {
      var xi := cs[i];  // xmin + i * step
      assert cs[..i + 1] == cs[..i] + [xi];
      match f(xi) {
        case Number(Finite(yi)) =>
          xs := xs + [xi];
          ys := ys + [yi];
        case _ =>
      }
      i := i + 1;
    }
    assert cs[..i] == cs;
    return Success(Curve(xs, ys));
  }

  /** The sampled curve has at most `n` points, its abscissae strictly
      increase over a window with `xmin < xmax`, and an abscissa is kept
      exactly when it is a candidate whose sample is usable. */
  lemma SampledCurveShape(f: real -> Sample, xmin: real, xmax: real, n: int)
    requires n != 1
    ensures var xs := Filter(Keeps(f), Candidates(xmin, xmax, n));
            && |xs| <= (if n < 0 then 0 else n)
            && (xmin < xmax ==> StrictlyIncreasing(xs))
            && forall c :: c in xs <==> c in Candidates(xmin, xmax, n) && Usable(f(c))
  {
    if xmin < xmax {
      CandidatesIncrease(xmin, xmax, n);
      FilterStrictlyIncreasing(Keeps(f), Candidates(xmin, xmax, n));
    }
  }

  /** The value for the marker: the exact evaluation at the point, cast to
      a float; absent without a point or when the evaluation raises. */
  function MarkerValue(lib: Library, e: Expr, xValue: Option<real>): (r: Option<Float>)
    ensures r.Some? <==> xValue.Some? && ExactValue(lib, e, xValue.value).Success?
    ensures r.Some? ==> r.value == ExactValue(lib, e, xValue.value).value.1
  {
    match xValue
    case None => None
    case Some(x0) =>
      match ExactValue(lib, e, x0)
      case Success(pair) => Some(pair.1)
      case Failure(_) => None
  }

  /** The marker and the analyzer's point evaluation agree: a value the
      evaluation reports is the marker's value, and unless the first
      denominator test raises or fires, the two are present together and
      equal. */
  lemma MarkerAgreesWithPointEvaluation(lib: Library, e: Expr, x0: real)
    ensures var ev := Analyzer.StepsForValue(lib, e, x0);
            ev.Success? && ev.value.value.Some? ==> MarkerValue(lib, e, Some(x0)) == ev.value.value
    ensures !Analyzer.FirstCheckRaises(lib, e, x0) && !Analyzer.FirstCheckFires(lib, e, x0) ==>
              var ev := Analyzer.StepsForValue(lib, e, x0);
              ev.Success? && ev.value.value == MarkerValue(lib, e, Some(x0))
  {
  }

  /** `make_figure`: widen the window, sample 1000 points over it, and place
      the marker when the exact value at the point is finite. The returned
      point is the caller's, even when the window moved; a non-finite value
      is returned but not marked. */
  method MakeFigure(lib: Library, p: FunctionPlotter, xValue: Option<real>, window: Window)
    returns (r: PlotResult)
    ensures r.xValue == xValue
    ensures r.window == AdjustWindow(window, xValue)
    ensures r.curve.xs == Filter(Keeps(p.f), Candidates(r.window.xmin, r.window.xmax, SampleCount))
    ensures |r.curve.xs| == |r.curve.ys|
    ensures forall k :: 0 <= k < |r.curve.xs| ==> p.f(r.curve.xs[k]) == Number(Finite(r.curve.ys[k]))
    ensures r.yValue.Some? <==> xValue.Some? && ExactValue(lib, p.expr, xValue.value).Success?
    ensures r.yValue.Some? ==> r.yValue.value == ExactValue(lib, p.expr, xValue.value).value.1
    ensures r.marker.Some? <==> r.yValue.Some? && r.yValue.value.Finite?
    ensures r.marker.Some? ==> r.marker.value == (xValue.value, r.yValue.value.v)
  {
    var w := AdjustWindow(window, xValue);
    var sampled := SamplePoints(p.f, w.xmin, w.xmax, SampleCount);
    var curve := sampled.value;
    var yv := MarkerValue(lib, p.expr, xValue);
    var marker: Option<(real, real)> := None;
    if yv.Some? && yv.value.Finite? {
      marker := Some((xValue.value, yv.value.v));
    }
    r := PlotResult(curve, w, marker, xValue, yv);
  }
}

=== FILE: seqs.dfy ===
/** Order-preserving filtering, the one sequence combinator the model needs. */
module Seqs {

  /** The elements of `s` that satisfy `p`, in their original order.
      Defined from the back, so that a loop that appends reads it directly. */
  function Filter<T>(p: T -> bool, s: seq<T>): (r: seq<T>)
    ensures |r| <= |s|
    ensures forall i :: 0 <= i < |r| ==> p(r[i]) && r[i] in s
    ensures forall x :: x in s && p(x) ==> x in r
    decreases |s|
  {
    if |s| == 0 then []
    else Filter(p, s[..|s| - 1]) + (if p(s[|s| - 1]) then [s[|s| - 1]] else [])
  }

  predicate StrictlyIncreasing(s: seq<real>)
  {
    forall i, j :: 0 <= i < j < |s| ==> s[i] < s[j]
  }

  /** A filtered strictly increasing sequence is still strictly increasing. */
  lemma {:induction false} FilterStrictlyIncreasing(p: real -> bool, s: seq<real>)
    requires StrictlyIncreasing(s)
    ensures StrictlyIncreasing(Filter(p, s))
    decreases |s|
  {
    if |s| > 0 {
      var init := s[..|s| - 1];
      var last := s[|s| - 1];
      FilterStrictlyIncreasing(p, init);
      var r := Filter(p, init);
      forall k | 0 <= k < |r|
        ensures r[k] < last
      {
        assert r[k] in init;
      }
    }
  }
}

=== FILE: sympy.dfy ===
/** The symbolic library the program calls, as uninterpreted behaviour: each
    library entry point is a field of `Library`, and every entry point that
    can raise returns an `Attempt`. Nothing here reimplements the library. */
module Sympy {
  import opened Outcomes
  import opened Expressions

  /** A set of reals computed by the library. `Reals` is the library's set of
      all reals; any other set is known only by a handle. */
  datatype SetValue = Reals | Computed(handle: nat)

  /** A Python float: finite, infinite or not a number. */
  datatype Float = Finite(v: real) | PosInf | NegInf | NaN

  /** What `solveset` returns: an explicit finite set (in its iteration
      order), some other kind of set, or an exception. The library's empty
      set is not a finite-set instance, so a solver result without any
      solution is an `OtherSet`; `FiniteSet` always has members. */
  datatype Solved = FiniteSet(members: seq<Expr>) | OtherSet(s: SetValue) | SolveRaises(error: Exc)

  /** What the numeric function built by `lambdify` returns at one point. */
  datatype Sample = Number(y: Float) | NoneValue | ComplexValue | SampleRaises(error: Exc)

  /** The library entry points the program uses. */
  datatype Library = Library(
    /** `sympify(text, locals=table, evaluate=True)`, for text that
        evaluates to an expression */
    sympify: (string, map<string, Binding>) -> Attempt<Expr>,
    /** `simplify(e)` */
    simplify: Expr -> Expr,
    /** `continuous_domain(e, x, S.Reals)` */
    continuousDomain: Expr -> Attempt<SetValue>,
    /** `function_range(e, x, domain)` */
    functionRange: (Expr, SetValue) -> Attempt<SetValue>,
    /** `solveset(Eq(e, 0), x, domain=domain)` */
    solveset: (Expr, SetValue) -> Solved,
    /** `v in s` for a set other than `Reals`; raises when undecided */
    contains: (SetValue, real) -> Attempt<bool>,
    /** `e.is_real`: true, false or unknown */
    isReal: Expr -> Option<bool>,
    /** `nsimplify(e)` */
    nsimplify: Expr -> Attempt<Expr>,
    /** `fraction(e)`: numerator and denominator */
    fraction: Expr -> (Expr, Expr),
    /** `e.subs(x, v)` */
    subs: (Expr, real) -> Attempt<Expr>,
    /** `e == 0`, structural comparison with zero */
    isZero: Expr -> bool,
    /** `float(N(e))` */
    toFloat: Expr -> Attempt<Float>,
    /** `lambdify(x, e, modules=["math"])` */
    lambdify: Expr -> Attempt<real -> Sample>)

  /** `v in s`: every real belongs to `Reals`; other sets ask the library. */
  function Member(lib: Library, s: SetValue, v: real): (r: Attempt<bool>)
    ensures s.Reals? ==> r == Success(true)
  {
    if s.Reals? then Success(true) else lib.contains(s, v)
  }

  /** The denominator of `e` in the library's numerator/denominator split. */
  function Denominator(lib: Library, e: Expr): Expr
  {
    lib.fraction(e).1
  }

  /** `float(N(e.subs(x, x0)))`, keeping the substituted expression too. */
  function ExactValue(lib: Library, e: Expr, x0: real): Attempt<(Expr, Float)>
  {
    match lib.subs(e, x0)
    case Failure(err) => Failure(err)
    case Success(sub) =>
      match lib.toFloat(sub)
      case Failure(err) => Failure(err)
      case Success(v) => Success((sub, v))
  }
}

=== FILE: whitespace.dfy ===
/** Python's `str.strip()` with no argument: removes leading and trailing
    characters for which `str.isspace()` holds. */
module Whitespace {

  /** The characters `str.isspace()` accepts: the ASCII controls TAB to CR,
      the separators 0x1C to 0x1F, the space, NEL, NBSP and the Unicode
      space separators and line/paragraph separators. */
  predicate IsSpace(c: char)
  {
    var k := c as int;
    || 0x09 <= k <= 0x0D
    || 0x1C <= k <= 0x20
    || k == 0x85 || k == 0xA0 || k == 0x1680
    || 0x2000 <= k <= 0x200A
    || k == 0x2028 || k == 0x2029 || k == 0x202F || k == 0x205F || k == 0x3000
  }

  /** Every character of `s` is whitespace (true of the empty string). */
  predicate AllSpace(s: string)
  {
    forall i :: 0 <= i < |s| ==> IsSpace(s[i])
  }

  /** `s` without its leading whitespace. */
  function TrimStart(s: string): (r: string)
    ensures |r| <= |s| && r == s[|s| - |r|..]
    ensures forall i :: 0 <= i < |s| - |r| ==> IsSpace(s[i])
    ensures |r| > 0 ==> !IsSpace(r[0])
    decreases |s|
  {
    if |s| > 0 && IsSpace(s[0]) then TrimStart(s[1..]) else s
  }

  /** `s` without its trailing whitespace. */
  function TrimEnd(s: string): (r: string)
    ensures |r| <= |s| && r == s[..|r|]
    ensures forall i :: |r| <= i < |s| ==> IsSpace(s[i])
    ensures |r| > 0 ==> !IsSpace(r[|r| - 1])
    decreases |s|
  {
    if |s| > 0 && IsSpace(s[|s| - 1]) then TrimEnd(s[..|s| - 1]) else s
  }

  /** The number of whitespace characters `Strip` removes from the front. */
  function Leading(s: string): nat
  {
    |s| - |TrimStart(s)|
  }

  /** `s` without leading and trailing whitespace: the infix of `s` that
      starts after its leading whitespace and is bordered by whitespace
      only, and that neither starts nor ends with whitespace. */
  function Strip(s: string): (r: string)
    ensures Leading(s) + |r| <= |s|
    ensures r == s[Leading(s)..Leading(s) + |r|]
    ensures forall i :: 0 <= i < Leading(s) ==> IsSpace(s[i])
    ensures forall i :: Leading(s) + |r| <= i < |s| ==> IsSpace(s[i])
    ensures |r| > 0 ==> !IsSpace(r[0]) && !IsSpace(r[|r| - 1])
  {
    var t := TrimStart(s);
    var r := TrimEnd(t);
    PrefixOfSuffix(s, t, r);
    r
  }

  /** A prefix `r` of a suffix `t` of `s` is an infix of `s`; when what `r`
      leaves of `t` is whitespace, so is everything after `r` in `s`. */
  lemma PrefixOfSuffix(s: string, t: string, r: string)
    requires |t| <= |s| && t == s[|s| - |t|..]
    requires |r| <= |t| && r == t[..|r|]
    requires forall i :: |r| <= i < |t| ==> IsSpace(t[i])
    ensures r == s[|s| - |t|..|s| - |t| + |r|]
    ensures forall i :: |s| - |t| + |r| <= i < |s| ==> IsSpace(s[i])
  {
    var k := |s| - |t|;
    forall i | k + |r| <= i < |s|
      ensures IsSpace(s[i])
    {
      assert s[i] == t[i - k];
    }
  }

  /** Stripping leaves nothing exactly when the text is whitespace only. */
  lemma StripEmptyIffAllSpace(s: string)
    ensures Strip(s) == [] <==> AllSpace(s)
  {
  }

  /** Stripping twice is stripping once. */
  lemma StripIdempotent(s: string)
    ensures Strip(Strip(s)) == Strip(s)
  {
    var r := Strip(s);
    assert TrimStart(r) == r;
    assert TrimEnd(r) == r;
  }
}
